=== FILE: README.md ===
# annotate_vcf — a Dafny model of the annotation core

`annotate_vcf.py` annotates the records of a VCF file. It runs the Ensembl
Variant Effect Predictor (VEP) once and parses its text output into a site
dictionary of variant class and consequence. Then, for every VCF record, it
writes one tab-separated row of ten fields. A row holds the site, the read
depths, the dictionary's class and consequence (or a fallback) and one ExAC
allele frequency per alternate allele.

This project models the pure logic of that pipeline as immutable data and
pure functions:

- `wrappers.dfy` — `Option` and `Result`, used for Python's raised errors.
- `text.dfy` — Python's `str.split()`, `str.split(sep)`, `sep.join` and
  `str(int)`, with their round trips.
- `vep_output.dfy` — the parse loop of `run_vep_and_parse_output`. It is a
  left fold over the output's lines into a `SiteTable`: the set of keys seen
  plus ONE shared record. In the source, `info` is a namedtuple class that is
  never instantiated. Every iteration overwrites the attributes of that one
  class and stores it under the line's key. So every key reads back the
  variant class and consequence of the last data line. A per-key dictionary
  (`ParseLinesPerKey`) is the evidently intended behaviour; see Findings.
- `site_metrics.dfy` — `get_info_per_site`: the site key
  `chrom_pos_ref/alt1/alt2`, the lookup with its `unknown` /
  `no_VEP_output:TYPE` fallback, the sum of AO, one frequency lookup per
  alternate allele, and the ten-field row.
- `report.dfy` — the fixed ten-column header, one line per record in order,
  and the whole run (`Annotate`).

Two external services are parameters of the model. The ExAC service is a
function from lookup key to `Option<string>`: `None` stands for the non-200
status that trips the assertion, and `Some` carries the rendered
`allele_freq` or `"unavailable"`. The float rendering of the two percentages
is a function `(part, total) -> string`.

Behaviour of the code that the model keeps:

- The site key uses the VCF record's own ALT order (annotate_vcf.py:155).
- Duplicate or distinct, all predictor keys share the last data line's record
  (annotate_vcf.py:53, 73-75): every key reads back the last data line's
  record, whichever line it came from.
- A malformed data line raises `IndexError` (annotate_vcf.py:73), so the
  whole run stops.
- A zero denominator in the percentages (annotate_vcf.py:150-151) raises
  nothing: numpy's scalar division yields NaN or infinity, so the renderer is
  total.

## Model

| member | source | states |
|---|---|---|
| Text.SplitWhitespace | annotate_vcf.py:73-75 | `line.split()` yields only non-empty tokens free of whitespace |
| Text.SplitWhitespaceJoin | annotate_vcf.py:73-75 | whitespace-free tokens joined by any non-empty run of whitespace (a tab, blanks, several of them) split back into exactly those tokens, in order |
| Text.SplitWhitespaceTrailingSpace | annotate_vcf.py:71-75 | the newline that file iteration leaves on each line adds no token |
| Text.SplitOn | annotate_vcf.py:73 | `s.split("=")` has at least one piece, more than one exactly when `=` occurs, and no piece contains `=` |
| Text.JoinSplitOn | annotate_vcf.py:73 | splitting on a separator loses nothing: joining the pieces back gives the original token |
| Text.SplitOnJoin | annotate_vcf.py:155-172 | parts free of the separator, once joined with it, split back into the same parts |
| Text.NatToString | annotate_vcf.py:155 | `str(pos)` is a non-empty run of decimal digits with no leading zero |
| Text.IntToString | annotate_vcf.py:164-168 | `str(i)` is a minus sign exactly for a negative integer, followed by decimal digits with no leading zero, so never `-0` or `07` |
| Text.IntToStringRoundTrip | annotate_vcf.py:162-168 | the decimal text written for an integer field reads back as that integer under `ParseInt`, which is `int()` restricted to an optional `-` and ASCII digits |
| Text.NatToStringInjective | annotate_vcf.py:155 | different positions never render to the same text |
| VepOutput.Decode | annotate_vcf.py:73-75 | a data line decodes exactly when it has more than 13 tokens and token 13 contains `=`; otherwise it names the fault (too few columns, or no `=`) |
| VepOutput.DecodeClassColumn | annotate_vcf.py:73-75 | a data line whose column 13 is `name=value`, possibly followed by `=more`, decodes to column 0 as key, `value` (the piece between the first and second `=`) as variant class and column 6 as consequence |
| VepOutput.ParseLines | annotate_vcf.py:53-76 | the dictionary's shared record exists exactly when at least one key has been stored |
| VepOutput.ParseSucceedsIffWellFormed | annotate_vcf.py:71-75 | the parse raises exactly when some non-comment line lacks column 13 or its `=`; malformed lines are errors, not skipped |
| VepOutput.ParseFailureNamesFirstFaultyLine | annotate_vcf.py:71-75 | a failed parse names the first faulty non-comment line and its fault, and all earlier data lines are well formed |
| VepOutput.ParsedKeysAreFirstTokens | annotate_vcf.py:72-75 | the key set is exactly the set of first tokens of the non-comment lines |
| VepOutput.SharedInfoIsLastDataLine | annotate_vcf.py:53-75 | the shared record holds token 6 and the value in token 13 of the last non-comment line |
| VepOutput.NoDataLineGivesEmptyTable | annotate_vcf.py:54-72 | output made only of `#` lines gives an empty dictionary |
| VepOutput.CommentLineIsIgnored | annotate_vcf.py:72 | inserting a `#` line anywhere changes neither the success of the parse, nor the keys, nor the shared record |
| VepOutput.AliasingQuirk | annotate_vcf.py:53-75 | every key in the dictionary reads back the class and consequence of the last data line, whichever line it came from |
| VepOutput.ParseLinesPerKey | annotate_vcf.py:70-76 | the per-key dictionary fails on the same line with the same fault as the loop as written, and has the same key set |
| VepOutput.PerKeyLastLineWins | annotate_vcf.py:73-75 | in the per-key dictionary, a key maps to the record of the last data line carrying it |
| VepOutput.AliasingDiffersFromPerKey | annotate_vcf.py:53-75 | for two data lines with different keys and records, the dictionary as written answers the first key with the second line's record; the per-key one answers with the first line's own |
| SiteMetrics.ResolveConsequence | annotate_vcf.py:156-161 | a hit yields the stored record; a miss yields consequence `unknown` and a class starting with `no_VEP_output:` |
| SiteMetrics.AlleleFrequencies | annotate_vcf.py:152-154 | one value per alternate allele in ALT order, each the service's answer for `chrom-pos-ref-alt`; if any lookup is rejected, the error names the first rejected key |
| SiteMetrics.GetInfoPerSite | annotate_vcf.py:144-173 | a row exists exactly when every frequency lookup succeeds; chrom and ref are copied; position, depth and alternate count are `str()` of POS, DP and the sum of AO, digits without leading zeros that read back as those numbers; class and consequence come from the site-key lookup or its fallback; the alt and frequency columns are the comma-joined ALT list and frequency list |
| SiteMetrics.SiteKeyDecodes | annotate_vcf.py:155 | the site key splits on `_` into chromosome, position and `ref/alts`, and that splits on `/` into REF followed by ALT in record order |
| SiteMetrics.SiteKeyIdentifiesSite | annotate_vcf.py:155 | two records share a site key only when chromosome, position, REF and the ALT list all agree |
| SiteMetrics.FrequencyKeyDecodes | annotate_vcf.py:154 | the lookup key splits on `-` into chromosome, position, REF and the one alternate allele |
| SiteMetrics.FallbackRecoversTypes | annotate_vcf.py:159-161 | on a miss, the TYPE labels can be read back from the class after the `no_VEP_output:` prefix |
| SiteMetrics.HitIgnoresTypes | annotate_vcf.py:156-158 | on a hit, class and consequence are the stored ones whatever TYPE holds (a corollary of `GetInfoPerSite`) |
| SiteMetrics.FrequencyColumnReadsBack | annotate_vcf.py:152-172 | the frequency column splits back into one entry per alternate allele, in ALT order, each the service's answer for that allele's lookup key |
| Report.RenderLine | annotate_vcf.py:102-104 | every written row ends in a newline, and splitting the rest on tabs gives back its fields when none contains a tab |
| Report.HeaderReadsBack | annotate_vcf.py:85-101 | the header is a rendered line: splitting it, without its newline, on tabs gives back the ten column names in order |
| Report.RowLines | annotate_vcf.py:102-104 | line i is the rendered row of record i; the lines stop exactly at the first record whose lookup is rejected, and that record's error is reported |
| Report.WriteReport | annotate_vcf.py:84-104 | the header comes first and line i + 1 is the row of record i; the run finishes exactly when every record's lookups succeed, and then there is one line per record; otherwise the lines stop at the first record that failed, and that record's error is reported |
| Report.Annotate | annotate_vcf.py:176-181 | a run writes no file exactly when the predictor output is malformed, naming the first faulty non-comment line and its fault; otherwise the file starts with the header, line i + 1 is the row of record i looked up in the parsed dictionary, the run completes exactly when every record's lookups succeed, and then there is one line per record; if not, the lines stop at the first record whose lookup was rejected, and its error is the one reported |
| Report.AnnotatePerKey | annotate_vcf.py:176-181 | the run with the per-key dictionary rejects the same predictor outputs, with the same error; otherwise it writes the header and then the row of each record looked up in the per-key dictionary, in order, stopping at the first record whose lookup was rejected and reporting its error |
| Report.HitReportsLastDataLine | annotate_vcf.py:155-158 | every record whose site key the predictor reported gets the last data line's class and consequence |

## Left out

- Running the `vep` subprocess and reading `vep_output.txt` (annotate_vcf.py:55-70): process and file I/O. The model takes the output's lines as a sequence of strings, and a non-zero exit is not modelled.
- Opening, writing and closing the output file (annotate_vcf.py:84): file I/O. The model returns the lines written, in order.
- `vcf.Reader` (annotate_vcf.py:83): an external library. Records arrive as `VcfRecord` values with CHROM, POS, REF, ALT, DP, AO, RO and TYPE always present. A missing INFO key (`KeyError`) is therefore not modelled.
- The ExAC HTTP request and its JSON decoding (annotate_vcf.py:119-128): network I/O. They are the `FrequencyService` parameter, which also covers `str()` of the returned frequency.
- The float percentages and their `str()` rendering (annotate_vcf.py:150-151, 169): floating point. They are the `PercentRenderer` parameter, applied as `alt:ref`.
- numpy's 64-bit integer sum (annotate_vcf.py:149): the model sums with unbounded integers, so wrap-around on huge counts is not modelled.
- SiteMetrics.GetInfoPerSite: for a record with no AO values, `np.sum([])` is the float `0.0` and the source writes `"0.0"`; the model writes `"0"`, because it sums integers only.
- Text.ParseInt: reads only the forms `str` writes (an optional `-` and ASCII digits); the leading `+`, surrounding whitespace, `_` separators and non-ASCII decimal digits (such as `٣` or `７`) that `int()` also accepts are read as failures.
- argparse and the `__main__` block (annotate_vcf.py:184-189): command-line plumbing.
- `ParseError.lineIndex` is a model addition that identifies the faulty line. Python's `IndexError` carries no line number.
- test_annotate_vcf.py exercises only the live ExAC service, which is outside the model.

## Findings

| source | as written | input that shows it | evidently intended | confidence | as-written member | corrected member |
|---|---|---|---|---|---|---|
| annotate_vcf.py:53-75 | `info` is the namedtuple class itself. Each data line overwrites its class attributes and stores the same object under every key, so all keys share the last line's values | two data lines, `1_100_A/G … missense_variant … VARIANT_CLASS=SNV` then `1_200_AT/A … frameshift_variant … VARIANT_CLASS=deletion`: key `1_100_A/G` reads back `deletion` / `frameshift_variant` | one `(variant_class, consequence)` record per key, with the last line for that key winning | high; not executed | VepOutput.AliasingDiffersFromPerKey | VepOutput.PerKeyLastLineWins |

=== FILE: report.dfy ===
/**
 `parse_vcf_and_extract_metrics` and the construction that precedes it: the
 predictor output is parsed first, then a fixed header and one tab-separated
 line per VCF record are written, in record order. A rejected frequency lookup
 raises mid-way and leaves the header and the lines already written.
 */
module Report {
  import opened Wrappers
  import opened Text
  import opened VepOutput
  import opened SiteMetrics

  const ColumnNames: seq<string> := [
    "chrom", "position", "ref", "alt", "seq_depth_at_site", "num_var_alleles",
    "perc_var_versus_ref_alleles", "variant_class", "consequence", "exac_af"]

  /** `"\t".join(fields) + "\n"`: a newline-terminated line from which a
      reader splitting on tabs recovers the fields, provided none holds a tab. */
  function RenderLine(fields: seq<string>): (line: string)
    ensures |line| > 0 && line[|line| - 1] == '\n'
    ensures (|fields| > 0 && forall i :: 0 <= i < |fields| ==> '\t' !in fields[i]) ==>
      SplitOn(line[..|line| - 1], '\t') == fields
  {
    var line := Join("\t", fields) + "\n";
    assert line[..|line| - 1] == Join(['\t'], fields);
    TabJoinReadsBack(fields);
    line
  }

  lemma TabJoinReadsBack(fields: seq<string>)
    ensures (|fields| > 0 && forall i :: 0 <= i < |fields| ==> '\t' !in fields[i]) ==>
      SplitOn(Join(['\t'], fields), '\t') == fields
  {
    if |fields| > 0 && forall i :: 0 <= i < |fields| ==> '\t' !in fields[i] {
      SplitOnJoin(fields, '\t');
    }
  }

  /** The header line: the column names joined the way `RenderLine` joins a row. */
  function HeaderLine(): string {
    Join("\t", ColumnNames) + "\n"
  }

  lemma HeaderIsRendered()
    ensures HeaderLine() == RenderLine(ColumnNames)
  {
  }

  lemma ColumnNamesTabFree()
    ensures forall i :: 0 <= i < |ColumnNames| ==> '\t' !in ColumnNames[i]
  {
  }

  /** A reader splitting the header on tabs gets the ten column names back. */
  lemma HeaderReadsBack()
    ensures |HeaderLine()| > 0
    ensures SplitOn(HeaderLine()[..|HeaderLine()| - 1], '\t') == ColumnNames
  {
    HeaderIsRendered();
    ColumnNamesTabFree();
  }

  /** The output file's lines as written, and the failure that cut it short. */
  datatype OutputFile = OutputFile(lines: seq<string>, failure: Option<LookupFailure>)

  /** The outcome of a whole run. */
  datatype RunOutcome =
    | PredictorOutputRejected(error: ParseError)  // raised while constructing; no output file
    | Written(report: OutputFile)

  /** `get_info_per_site(rec, site_dict)` with the dictionary and the two
      services fixed: what the write loop calls for each record. */
  type Extractor = VcfRecord -> Result<Row, LookupFailure>

  function Extraction(lookup: string -> Option<ConsequenceInfo>, exac: FrequencyService,
                      percent: PercentRenderer): Extractor {
    rec => GetInfoPerSite(rec, lookup, exac, percent)
  }

  /** The row lines for `records`, in order, stopping at the first record
      whose frequency lookup is rejected. */
  function RowLines(records: seq<VcfRecord>, extract: Extractor): (out: (seq<string>, Option<LookupFailure>))
    ensures |out.0| <= |records|
    ensures forall i :: 0 <= i < |out.0| ==>
      extract(records[i]).Success? && out.0[i] == RenderLine(extract(records[i]).value.Fields())
    ensures out.1.None? <==> |out.0| == |records|
    ensures out.1.Some? ==> extract(records[|out.0|]) == Failure(out.1.value)
    decreases |records|
  {
    if |records| == 0 then ([], None)
    else match extract(records[0])
      case Failure(e) => ([], Some(e))
      case Success(row) =>
        var (rest, failure) := RowLines(records[1..], extract);
        ([RenderLine(row.Fields())] + rest, failure)
  }

  /** The header, then one row per record in record order. */
  function WriteReport(records: seq<VcfRecord>, extract: Extractor): (r: OutputFile)
    ensures |r.lines| >= 1 && r.lines[0] == HeaderLine()
    ensures r.failure.None? <==> forall i :: 0 <= i < |records| ==> extract(records[i]).Success?
    ensures r.failure.None? ==> |r.lines| == |records| + 1
    ensures forall i :: 0 <= i < |r.lines| - 1 ==>
      i < |records| && extract(records[i]).Success?
      && r.lines[i + 1] == RenderLine(extract(records[i]).value.Fields())
    ensures r.failure.Some? ==> |r.lines| <= |records| && extract(records[|r.lines| - 1]) == Failure(r.failure.value)
  {
    var (rows, failure) := RowLines(records, extract);
    var lines := [HeaderLine()] + rows;
    assert forall i :: 0 <= i < |rows| ==> lines[i + 1] == rows[i];
    assert failure.Some? ==> !extract(records[|rows|]).Success?;
    OutputFile(lines, failure)
  }

  /** What a written output file holds when the rows are looked up in
      `lookup`: the header, then the row of each record in order; the run is
      complete exactly when every record's lookups succeed, and otherwise the
      lines stop at the first record whose lookup was rejected, whose error is
      the one kept. */
  ghost predicate WritesRows(records: seq<VcfRecord>, lookup: string -> Option<ConsequenceInfo>,
                             exac: FrequencyService, percent: PercentRenderer, f: OutputFile) {
    && |f.lines| > 0 && f.lines[0] == HeaderLine()
    && (f.failure.None? <==>
         forall i :: 0 <= i < |records| ==> GetInfoPerSite(records[i], lookup, exac, percent).Success?)
    && (f.failure.None? ==> |f.lines| == |records| + 1)
    && (forall i :: 0 <= i < |f.lines| - 1 ==>
         i < |records| && GetInfoPerSite(records[i], lookup, exac, percent).Success?
         && f.lines[i + 1] == RenderLine(GetInfoPerSite(records[i], lookup, exac, percent).value.Fields()))
    && (f.failure.Some? ==>
         |f.lines| <= |records|
         && GetInfoPerSite(records[|f.lines| - 1], lookup, exac, percent) == Failure(f.failure.value))
  }

  lemma WriteReportWritesRows(records: seq<VcfRecord>, lookup: string -> Option<ConsequenceInfo>,
                              exac: FrequencyService, percent: PercentRenderer)
    ensures WritesRows(records, lookup, exac, percent, WriteReport(records, Extraction(lookup, exac, percent)))
  {
  }

  /** The site dictionary as the source builds it, used as a lookup. */
  function SharedLookup(t: SiteTable): string -> Option<ConsequenceInfo> {
    key => t.Get(key)
  }

  /** The per-key dictionary, used as a lookup. */
  function PerKeyLookup(m: map<string, ConsequenceInfo>): string -> Option<ConsequenceInfo> {
    key => PerKeyGet(m, key)
  }

  /** A whole run: parse the predictor's output, then write the report. */
  function Annotate(vepLines: seq<string>, records: seq<VcfRecord>,
                    exac: FrequencyService, percent: PercentRenderer): (out: RunOutcome)
    ensures out.PredictorOutputRejected? <==> !WellFormed(vepLines)
    ensures out.PredictorOutputRejected? ==>
      out.error.lineIndex < |vepLines| && !IsComment(vepLines[out.error.lineIndex]) &&
      Decode(vepLines[out.error.lineIndex]) == Failure(out.error.fault) &&
      WellFormed(vepLines[..out.error.lineIndex])
    ensures out.Written? ==>
      ParseLines(vepLines).Success? &&
      WritesRows(records, SharedLookup(ParseLines(vepLines).value), exac, percent, out.report)
  {
    match ParseLines(vepLines)
    case Failure(e) =>
      ParseSucceedsIffWellFormed(vepLines);
      ParseFailureNamesFirstFaultyLine(vepLines);
      PredictorOutputRejected(e)
    case Success(t) =>
      ParseSucceedsIffWellFormed(vepLines);
      WriteReportWritesRows(records, SharedLookup(t), exac, percent);
      Written(WriteReport(records, Extraction(SharedLookup(t), exac, percent)))
  }

  /** The run with the evidently intended per-key dictionary. */
  function AnnotatePerKey(vepLines: seq<string>, records: seq<VcfRecord>,
                          exac: FrequencyService, percent: PercentRenderer): (out: RunOutcome)
    ensures out.PredictorOutputRejected? <==> !WellFormed(vepLines)
    ensures out.PredictorOutputRejected? ==> out == Annotate(vepLines, records, exac, percent)
    ensures out.Written? ==>
      ParseLinesPerKey(vepLines).Success? &&
      WritesRows(records, PerKeyLookup(ParseLinesPerKey(vepLines).value), exac, percent, out.report)
  {
    match ParseLinesPerKey(vepLines)
    case Failure(e) =>
      ParseSucceedsIffWellFormed(vepLines);
      PredictorOutputRejected(e)
    case Success(m) =>
      ParseSucceedsIffWellFormed(vepLines);
      WriteReportWritesRows(records, PerKeyLookup(m), exac, percent);
      Written(WriteReport(records, Extraction(PerKeyLookup(m), exac, percent)))
  }

  // ---------------------------------------------------------------------
  // Properties of the table

  /** The aliasing quirk at the lookup: every record whose site key the
      predictor reported gets the class and consequence of the last data line
      of the predictor output, whichever line its own key came from. */
  lemma HitReportsLastDataLine(vepLines: seq<string>, last: int, rec: VcfRecord)
    requires ParseLines(vepLines).Success?
    requires IsLastDataLine(vepLines, last)
    requires SiteKey(rec) in KeysOf(vepLines)
    ensures Decode(vepLines[last]).Success?
    ensures ResolveConsequence(SharedLookup(ParseLines(vepLines).value)(SiteKey(rec)), rec.types)
      == Decode(vepLines[last]).value.1
  {
    AliasingQuirk(vepLines, last, SiteKey(rec));
  }
}

=== FILE: site_metrics.dfy ===
/**
 `get_info_per_site`: one VCF record and the site dictionary give one
 ten-field report row. The remote allele-frequency service and the float
 rendering of the two percentages are parameters: the model does not see them.
 */
module SiteMetrics {
  import opened Wrappers
  import opened Text
  import opened VepOutput

  /** A VCF record, reduced to the fields the annotator reads. */
  datatype VcfRecord = VcfRecord(
    chrom: string,
    pos: nat,
    ref: string,
    alts: seq<string>,     // ALT, in the record's order
    dp: int,               // INFO DP, total depth
    ao: seq<int>,          // INFO AO, one count per alternate allele
    ro: int,               // INFO RO, reference observations
    types: seq<string>)    // INFO TYPE, the record's own type labels

  /** The frequency service answered with a status other than 200 for this key. */
  datatype LookupFailure = ServiceRejected(key: string)

  /** The ExAC lookup: the rendered `allele_freq` (or "unavailable") for a
      lookup key, or None where the status assertion fails. */
  type FrequencyService = string -> Option<string>

  /** Renders `100 * part / total` as Python's `str` of a float would (a NaN
      or infinity when `total` is zero, as numpy division gives). */
  type PercentRenderer = (int, int) -> string

  const NoVepPrefix := "no_VEP_output:"
  const UnknownConsequence := "unknown"

  /** The ten fields of a report row, in column order. */
  datatype Row = Row(
    chrom: string,
    position: string,
    ref: string,
    alt: string,
    seqDepth: string,
    numVarAlleles: string,
    percentages: string,
    variantClass: string,
    consequence: string,
    exacAf: string)
  {
    function Fields(): (fields: seq<string>)
      ensures |fields| == 10
    {
      [chrom, position, ref, alt, seqDepth, numVarAlleles, percentages, variantClass, consequence, exacAf]
    }
  }

  /** The key into the predictor's dictionary: `chrom_pos_ref/alt1/alt2/...`. */
  function SiteKey(rec: VcfRecord): string {
    rec.chrom + "_" + NatToString(rec.pos) + "_" + rec.ref + "/" + Join("/", rec.alts)
  }

  /** The key for one alternate allele at the frequency service: `chrom-pos-ref-alt`. */
  function FrequencyKey(rec: VcfRecord, alt: string): string {
    rec.chrom + "-" + NatToString(rec.pos) + "-" + rec.ref + "-" + alt
  }

  /** `np.sum(AO)`: the alternate observations of all alleles together. */
  function Sum(xs: seq<int>): int {
    if |xs| == 0 then 0 else xs[0] + Sum(xs[1..])
  }

  /** The dictionary hit, or the fallback for a site the predictor did not report. */
  function ResolveConsequence(hit: Option<ConsequenceInfo>, types: seq<string>): (info: ConsequenceInfo)
    ensures hit.Some? ==> info == hit.value
    ensures hit.None? ==> info.consequence == UnknownConsequence
    ensures hit.None? ==>
      |NoVepPrefix| <= |info.variantClass| && info.variantClass[..|NoVepPrefix|] == NoVepPrefix
  {
    match hit
    case Some(found) => found
    case None => ConsequenceInfo(NoVepPrefix + Join(",", types), UnknownConsequence)
  }

  /** One lookup per alternate allele, in ALT order; the first rejected
      lookup raises and ends the list. */
  function AlleleFrequencies(rec: VcfRecord, alts: seq<string>, exac: FrequencyService)
    : (r: Result<seq<string>, LookupFailure>)
    ensures r.Success? <==> forall i :: 0 <= i < |alts| ==> exac(FrequencyKey(rec, alts[i])).Some?
    ensures r.Success? ==> |r.value| == |alts|
    ensures r.Success? ==> forall i :: 0 <= i < |alts| ==> r.value[i] == exac(FrequencyKey(rec, alts[i])).value
    ensures r.Failure? ==>
      exists i :: FirstRejected(rec, alts, exac, i) && r.error == ServiceRejected(FrequencyKey(rec, alts[i]))
    decreases |alts|
  {
    if |alts| == 0 then Success([])
    else match exac(FrequencyKey(rec, alts[0]))
      case None => assert FirstRejected(rec, alts, exac, 0); Failure(ServiceRejected(FrequencyKey(rec, alts[0])))
      case Some(af) =>
        match AlleleFrequencies(rec, alts[1..], exac)
        case Failure(e) =>
          assert forall i :: FirstRejected(rec, alts[1..], exac, i) ==> FirstRejected(rec, alts, exac, i + 1);
          Failure(e)
        case Success(rest) => Success([af] + rest)
  }

  /** Allele `i` is the first whose lookup the service rejects. */
  ghost predicate FirstRejected(rec: VcfRecord, alts: seq<string>, exac: FrequencyService, i: int) {
    0 <= i < |alts| && exac(FrequencyKey(rec, alts[i])).None?
    && forall j :: 0 <= j < i ==> exac(FrequencyKey(rec, alts[j])).Some?
  }

  /** The row for one record; `lookup` is the site dictionary's `get`. */
  function GetInfoPerSite(rec: VcfRecord, lookup: string -> Option<ConsequenceInfo>,
                          exac: FrequencyService, percent: PercentRenderer): (r: Result<Row, LookupFailure>)
    ensures r.Success? <==> forall i :: 0 <= i < |rec.alts| ==> exac(FrequencyKey(rec, rec.alts[i])).Some?
    ensures r.Failure? ==>
      exists i :: FirstRejected(rec, rec.alts, exac, i) && r.error == ServiceRejected(FrequencyKey(rec, rec.alts[i]))
    ensures r.Success? ==>
      var row := r.value;
      && row.chrom == rec.chrom && row.ref == rec.ref
      && row.position == IntToString(rec.pos) && ParseInt(row.position) == Some(rec.pos)
      && row.seqDepth == IntToString(rec.dp) && ParseInt(row.seqDepth) == Some(rec.dp)
      && row.numVarAlleles == IntToString(Sum(rec.ao)) && ParseInt(row.numVarAlleles) == Some(Sum(rec.ao))
      && row.alt == Join(",", rec.alts)
      && ConsequenceInfo(row.variantClass, row.consequence)
         == ResolveConsequence(lookup(SiteKey(rec)), rec.types)
      && row.exacAf == Join(",", AlleleFrequencies(rec, rec.alts, exac).value)
  {
    var numVar := Sum(rec.ao);
    var total := numVar + rec.ro;
    match AlleleFrequencies(rec, rec.alts, exac)
    case Failure(e) => Failure(e)
    case Success(afs) =>
      var info := ResolveConsequence(lookup(SiteKey(rec)), rec.types);
      IntToStringRoundTrip(rec.pos);
      IntToStringRoundTrip(rec.dp);
      IntToStringRoundTrip(numVar);
      Success(Row(
        rec.chrom,
        IntToString(rec.pos),
        rec.ref,
        Join(",", rec.alts),
        IntToString(rec.dp),
        IntToString(numVar),
        percent(numVar, total) + ":" + percent(rec.ro, total),
        info.variantClass,
        info.consequence,
        Join(",", afs)))
  }

  // ---------------------------------------------------------------------
  // Keys and fallback read back

  /** The site key splits back into chromosome, position and alleles when none
      of them contains the separators `_` and `/`. */
  lemma SiteKeyDecodes(rec: VcfRecord)
    requires '_' !in rec.chrom && '_' !in rec.ref && '/' !in rec.ref
    requires |rec.alts| > 0
    requires forall i :: 0 <= i < |rec.alts| ==> '_' !in rec.alts[i] && '/' !in rec.alts[i]
    ensures SplitOn(SiteKey(rec), '_') == [rec.chrom, NatToString(rec.pos), rec.ref + "/" + Join("/", rec.alts)]
    ensures SplitOn(rec.ref + "/" + Join("/", rec.alts), '/') == [rec.ref] + rec.alts
  {
    var digits := NatToString(rec.pos);
    var alleles := rec.ref + "/" + Join("/", rec.alts);
    NotInJoin('_', "/", rec.alts);
    assert '_' !in alleles;
    assert '_' !in digits;
    assert SiteKey(rec) == rec.chrom + ['_'] + (digits + ['_'] + alleles);
    SplitOnFirstPiece(rec.chrom, '_', digits + ['_'] + alleles);
    SplitOnFirstPiece(digits, '_', alleles);
    SplitOnWithoutSeparator(alleles, '_');
    SplitOnFirstPiece(rec.ref, '/', Join("/", rec.alts));
    SplitOnJoin(rec.alts, '/');
  }

  /** Two records meeting the separator conditions share a site key only if they
      agree on chromosome, position, reference and alternate alleles. */
  lemma SiteKeyIdentifiesSite(a: VcfRecord, b: VcfRecord)
    requires '_' !in a.chrom && '_' !in a.ref && '/' !in a.ref && |a.alts| > 0
    requires forall i :: 0 <= i < |a.alts| ==> '_' !in a.alts[i] && '/' !in a.alts[i]
    requires '_' !in b.chrom && '_' !in b.ref && '/' !in b.ref && |b.alts| > 0
    requires forall i :: 0 <= i < |b.alts| ==> '_' !in b.alts[i] && '/' !in b.alts[i]
    requires SiteKey(a) == SiteKey(b)
    ensures a.chrom == b.chrom && a.pos == b.pos && a.ref == b.ref && a.alts == b.alts
  {
    SiteKeyDecodes(a);
    SiteKeyDecodes(b);
    NatToStringInjective(a.pos, b.pos);
    assert [a.ref] + a.alts == [b.ref] + b.alts;
    assert a.alts == ([a.ref] + a.alts)[1..];
  }

  /** The frequency lookup key splits on `-` into chromosome, position,
      reference and the one alternate allele. */
  lemma FrequencyKeyDecodes(rec: VcfRecord, alt: string)
    requires '-' !in rec.chrom && '-' !in rec.ref && '-' !in alt
    ensures SplitOn(FrequencyKey(rec, alt), '-') == [rec.chrom, NatToString(rec.pos), rec.ref, alt]
  {
    var digits := NatToString(rec.pos);
    assert '-' !in digits;
    var last := rec.ref + ['-'] + alt;
    var middle := digits + ['-'] + last;
    assert FrequencyKey(rec, alt) == rec.chrom + ['-'] + middle;
    SplitOnWithoutSeparator(alt, '-');
    SplitOnFirstPiece(rec.ref, '-', alt);
    SplitOnFirstPiece(digits, '-', last);
    SplitOnFirstPiece(rec.chrom, '-', middle);
  }

  /** On a miss, the fallback class carries the record's TYPE labels, which
      split back out of it when they contain no comma. */
  lemma FallbackRecoversTypes(types: seq<string>)
    requires |types| > 0
    requires forall i :: 0 <= i < |types| ==> ',' !in types[i]
    ensures var info := ResolveConsequence(None, types);
      SplitOn(info.variantClass[|NoVepPrefix|..], ',') == types
  {
    var info := ResolveConsequence(None, types);
    assert info.variantClass[|NoVepPrefix|..] == Join(",", types);
    SplitOnJoin(types, ',');
  }

  /** On a hit the TYPE labels play no part: two records differing only in
      TYPE get the same class and consequence, the stored ones. */
  lemma HitIgnoresTypes(rec: VcfRecord, otherTypes: seq<string>, lookup: string -> Option<ConsequenceInfo>,
                        exac: FrequencyService, percent: PercentRenderer)
    requires lookup(SiteKey(rec)).Some?
    requires forall i :: 0 <= i < |rec.alts| ==> exac(FrequencyKey(rec, rec.alts[i])).Some?
    ensures GetInfoPerSite(rec, lookup, exac, percent).Success?
    ensures var other := GetInfoPerSite(rec.(types := otherTypes), lookup, exac, percent);
      var row := GetInfoPerSite(rec, lookup, exac, percent).value;
      && other.Success?
      && other.value.variantClass == row.variantClass == lookup(SiteKey(rec)).value.variantClass
      && other.value.consequence == row.consequence == lookup(SiteKey(rec)).value.consequence
  {
  }

  /** The frequency column splits back into one entry per alternate allele, in
      ALT order, each the service's answer for that allele, when no answer
      contains a comma. */
  lemma FrequencyColumnReadsBack(rec: VcfRecord, exac: FrequencyService)
    requires |rec.alts| > 0
    requires forall i :: 0 <= i < |rec.alts| ==>
      exac(FrequencyKey(rec, rec.alts[i])).Some? && ',' !in exac(FrequencyKey(rec, rec.alts[i])).value
    ensures var column := SplitOn(Join(",", AlleleFrequencies(rec, rec.alts, exac).value), ',');
      && |column| == |rec.alts|
      && forall i :: 0 <= i < |rec.alts| ==> column[i] == exac(FrequencyKey(rec, rec.alts[i])).value
  {
    SplitOnJoin(AlleleFrequencies(rec, rec.alts, exac).value, ',');
  }
}

=== FILE: text.dfy ===
/**
 The string operations the annotator relies on, with Python's semantics:
 `str.split()` (runs of whitespace), `str.split(sep)` (every separator counts),
 `sep.join(parts)` and `str(n)` for integers.
 */
module Text {
  import opened Wrappers

  /** Python's `str.isspace()` for one character: ASCII blanks and controls 9-13,
      the separators 28-31, NEL, NBSP and the Unicode space separators. */
  predicate IsSpace(c: char) {
    var n := c as int;
    n == 32 || 9 <= n <= 13 || 28 <= n <= 31 || n == 0x85 || n == 0xA0
    || n == 0x1680 || 0x2000 <= n <= 0x200A || n == 0x2028 || n == 0x2029
    || n == 0x202F || n == 0x205F || n == 0x3000
  }

  /** A token `str.split()` can return: non-empty, no whitespace inside. */
  predicate IsToken(t: string) {
    |t| > 0 && NoSpace(t)
  }

  /** No whitespace character anywhere in `t`. */
  predicate NoSpace(t: string) {
    forall i :: 0 <= i < |t| ==> !IsSpace(t[i])
  }

  /** Whitespace characters only. */
  predicate AllSpace(s: string) {
    forall i :: 0 <= i < |s| ==> IsSpace(s[i])
  }

  /** `line.startswith("#")`. */
  predicate IsComment(line: string) {
    |line| > 0 && line[0] == '#'
  }

  /** `sep.join(parts)`. */
  function Join(sep: string, parts: seq<string>): string
  {
    if |parts| == 0 then ""
    else if |parts| == 1 then parts[0]
    else parts[0] + sep + Join(sep, parts[1..])
  }

  /** `s.split()`: the maximal runs of non-whitespace characters, in order. */
  function SplitWhitespace(s: string): (tokens: seq<string>)
    ensures forall i :: 0 <= i < |tokens| ==> IsToken(tokens[i])
  {
    Tokenize(s, "")
  }

  /** Splits `s` while `pending` holds the part of a token already read. */
  function Tokenize(s: string, pending: string): (tokens: seq<string>)
    requires NoSpace(pending)
    ensures forall i :: 0 <= i < |tokens| ==> IsToken(tokens[i])
    decreases |s|
  {
    if |s| == 0 then
      (if pending == "" then [] else [pending])
    else if IsSpace(s[0]) then
      (if pending == "" then [] else [pending]) + Tokenize(s[1..], "")
    else
      Tokenize(s[1..], pending + [s[0]])
  }

  /** `s.split(sep)` for a one-character separator: the pieces between
      separators, empty ones included, so there is always at least one. */
  function SplitOn(s: string, sep: char): (pieces: seq<string>)
    ensures |pieces| >= 1
    ensures sep in s <==> |pieces| > 1
    ensures forall i :: 0 <= i < |pieces| ==> sep !in pieces[i]
  {
    if |s| == 0 then [""]
    else
      var rest := SplitOn(s[1..], sep);
      if s[0] == sep then [""] + rest
      else [[s[0]] + rest[0]] + rest[1..]
  }

  predicate IsDigit(c: char) {
    '0' <= c <= '9'
  }

  predicate AllDigits(s: string) {
    forall i :: 0 <= i < |s| ==> IsDigit(s[i])
  }

  function DigitChar(d: nat): (c: char)
    requires d < 10
    ensures IsDigit(c)
  {
    (48 + d) as char
  }

  function DigitValue(c: char): nat
    requires IsDigit(c)
  {
    (c as int) - 48
  }

  /** `str(n)` for a non-negative integer: decimal digits, no leading zero. */
  function NatToString(n: nat): (s: string)
    ensures |s| > 0 && AllDigits(s)
    ensures |s| > 1 ==> s[0] != '0'
    decreases n
  {
    if n < 10 then [DigitChar(n)] else NatToString(n / 10) + [DigitChar(n % 10)]
  }

  /** `str(i)` for any integer: a minus sign before the digits of a negative
      one, no leading zero, never `-0`. */
  function IntToString(i: int): (s: string)
    ensures |s| > 0 && (s[0] == '-' <==> i < 0)
    ensures i < 0 ==> |s| > 1 && AllDigits(s[1..]) && s[1] != '0'
    ensures i >= 0 ==> AllDigits(s) && (|s| > 1 ==> s[0] != '0')
  {
    if i < 0 then "-" + NatToString(-i) else NatToString(i)
  }

  /** The value of a run of decimal digits, most significant first. */
  function DecimalValue(s: string): nat
    requires AllDigits(s)
  {
    if |s| == 0 then 0 else DecimalValue(s[..|s| - 1]) * 10 + DigitValue(s[|s| - 1])
  }

  /** The reading a consumer of the report applies: `int(s)` restricted to
      a non-empty run of ASCII digits, `None` for any other text. */
  function ParseNat(s: string): (r: Option<nat>)
    ensures r.Some? <==> |s| > 0 && AllDigits(s)
  {
    if |s| > 0 && AllDigits(s) then Some(DecimalValue(s)) else None
  }

  /** `int(s)` restricted to an optional `-` followed by ASCII digits. */
  function ParseInt(s: string): (r: Option<int>)
    ensures r.Some? <==> |s| > 0 && (if s[0] == '-' then |s| > 1 && AllDigits(s[1..]) else AllDigits(s))
  {
    if |s| > 0 && s[0] == '-' then
      match ParseNat(s[1..])
      case None => None
      case Some(n) => Some(-(n as int))
    else
      match ParseNat(s)
      case None => None
      case Some(n) => Some(n as int)
  }

  // ---------------------------------------------------------------------
  // Round trips

  lemma {:induction false} NatToStringRoundTrip(n: nat)
    ensures ParseNat(NatToString(n)) == Some(n)
    decreases n
  {
    var s := NatToString(n);
    if n >= 10 {
      var prefix := NatToString(n / 10);
      NatToStringRoundTrip(n / 10);
      assert DecimalValue(prefix) == n / 10;
      assert s[..|s| - 1] == prefix;
      assert DecimalValue(s) == (n / 10) * 10 + n % 10;
    }
  }

  /** What `str` writes for an integer, `int` reads back. */
  lemma IntToStringRoundTrip(i: int)
    ensures ParseInt(IntToString(i)) == Some(i)
  {
    if i < 0 {
      NatToStringRoundTrip(-i);
      assert IntToString(i)[1..] == NatToString(-i);
    } else {
      NatToStringRoundTrip(i);
    }
  }

  lemma NatToStringInjective(m: nat, n: nat)
    requires NatToString(m) == NatToString(n)
    ensures m == n
  {
    NatToStringRoundTrip(m);
    NatToStringRoundTrip(n);
  }

  lemma {:induction false} SplitOnWithoutSeparator(p: string, sep: char)
    requires sep !in p
    ensures SplitOn(p, sep) == [p]
    decreases |p|
  {
    if |p| > 0 {
      SplitOnWithoutSeparator(p[1..], sep);
      assert [p[0]] + p[1..] == p;
    }
  }

  lemma {:induction false} SplitOnFirstPiece(p: string, sep: char, rest: string)
    requires sep !in p
    ensures SplitOn(p + [sep] + rest, sep) == [p] + SplitOn(rest, sep)
    decreases |p|
  {
    var s := p + [sep] + rest;
    if |p| == 0 {
      assert s[1..] == rest;
    } else {
      assert s[1..] == p[1..] + [sep] + rest;
      SplitOnFirstPiece(p[1..], sep, rest);
      assert [p[0]] + p[1..] == p;
    }
  }

  /** Joining parts that do not contain the separator, then splitting, gives the parts back. */
  lemma {:induction false} SplitOnJoin(parts: seq<string>, sep: char)
    requires |parts| > 0
    requires forall i :: 0 <= i < |parts| ==> sep !in parts[i]
    ensures SplitOn(Join([sep], parts), sep) == parts
    decreases |parts|
  {
    if |parts| == 1 {
      SplitOnWithoutSeparator(parts[0], sep);
    } else {
      SplitOnJoin(parts[1..], sep);
      SplitOnFirstPiece(parts[0], sep, Join([sep], parts[1..]));
    }
  }

  /** Splitting, then joining with the same separator, gives the string back. */
  lemma {:induction false} JoinSplitOn(s: string, sep: char)
    ensures Join([sep], SplitOn(s, sep)) == s
    decreases |s|
  {
    if |s| > 0 {
      var rest := SplitOn(s[1..], sep);
      JoinSplitOn(s[1..], sep);
      if s[0] == sep {
        assert Join([sep], [""] + rest) == [sep] + Join([sep], rest);
      } else if |rest| == 1 {
        assert [s[0]] + s[1..] == s;
      } else {
        var first := [s[0]] + rest[0];
        var tail := Join([sep], rest[1..]);
        assert s[1..] == rest[0] + [sep] + tail;
        assert ([first] + rest[1..])[1..] == rest[1..];
        assert Join([sep], [first] + rest[1..]) == first + [sep] + tail;
        assert s == [s[0]] + s[1..];
      }
    }
  }

  lemma {:induction false} NotInJoin(c: char, sep: string, parts: seq<string>)
    requires c !in sep
    requires forall i :: 0 <= i < |parts| ==> c !in parts[i]
    ensures c !in Join(sep, parts)
    decreases |parts|
  {
    if |parts| > 1 {
      NotInJoin(c, sep, parts[1..]);
    }
  }

  lemma {:induction false} TokenizeRun(p: string, rest: string, pending: string)
    requires NoSpace(p) && NoSpace(pending)
    ensures Tokenize(p + rest, pending) == Tokenize(rest, pending + p)
    decreases |p|
  {
    if |p| > 0 {
      assert (p + rest)[1..] == p[1..] + rest;
      TokenizeRun(p[1..], rest, pending + [p[0]]);
      assert pending + [p[0]] + p[1..] == pending + p;
    } else {
      assert p + rest == rest;
      assert pending + p == pending;
    }
  }

  /** Leading whitespace between tokens yields nothing. */
  lemma {:induction false} TokenizeSkipsSpace(ws: string, rest: string)
    requires AllSpace(ws)
    ensures Tokenize(ws + rest, "") == Tokenize(rest, "")
    decreases |ws|
  {
    if |ws| > 0 {
      assert (ws + rest)[1..] == ws[1..] + rest;
      TokenizeSkipsSpace(ws[1..], rest);
    } else {
      assert ws + rest == rest;
    }
  }

  /** Whitespace-free tokens joined by any non-empty run of whitespace (a tab,
      a blank, several of them) split back into themselves. */
  lemma {:induction false} SplitWhitespaceJoin(tokens: seq<string>, sep: string)
    requires forall i :: 0 <= i < |tokens| ==> IsToken(tokens[i])
    requires |sep| > 0 && AllSpace(sep)
    ensures SplitWhitespace(Join(sep, tokens)) == tokens
    decreases |tokens|
  {
    if |tokens| > 0 {
      var first := tokens[0];
      assert "" + first == first;
      if |tokens| == 1 {
        TokenizeRun(first, "", "");
        assert first + "" == first;
        assert Tokenize("", first) == [first];
      } else {
        var tail := Join(sep, tokens[1..]);
        SplitWhitespaceJoin(tokens[1..], sep);
        assert first + sep + tail == first + (sep + tail);
        TokenizeRun(first, sep + tail, "");
        var rest := sep + tail;
        assert IsSpace(rest[0]) && rest[1..] == sep[1..] + tail;
        TokenizeSkipsSpace(sep[1..], tail);
        assert Tokenize(rest, first) == [first] + Tokenize(tail, "");
        assert tokens == [first] + tokens[1..];
      }
    }
  }

  lemma {:induction false} TokenizeTrailingSpace(s: string, c: char, pending: string)
    requires IsSpace(c) && NoSpace(pending)
    ensures Tokenize(s + [c], pending) == Tokenize(s, pending)
    decreases |s|
  {
    if |s| > 0 {
      assert (s + [c])[1..] == s[1..] + [c];
      if IsSpace(s[0]) {
        TokenizeTrailingSpace(s[1..], c, "");
      } else {
        TokenizeTrailingSpace(s[1..], c, pending + [s[0]]);
      }
    } else {
      assert ([c])[1..] == [];
    }
  }

  /** A line terminator (or any trailing whitespace character) adds no token. */
  lemma SplitWhitespaceTrailingSpace(s: string, c: char)
    requires IsSpace(c)
    ensures SplitWhitespace(s + [c]) == SplitWhitespace(s)
  {
    TokenizeTrailingSpace(s, c, "");
  }
}

=== FILE: vep_output.dfy ===
/**
 The predictor-output parser of `run_vep_and_parse_output`.

 Every line that does not start with `#` is split on whitespace; token 0 is
 the site key, token 6 the consequence and the piece of token 13 between
 its first and second `=` (or the end of the token) the variant class. The
 source stores these on the one shared `info` object (a namedtuple *class*,
 never instantiated) and files that same object under every key. So the site
 dictionary is modelled as a key set plus ONE shared record: whatever the
 key, a hit reads back the class and consequence of the last data line.
 */
module VepOutput {
  import opened Wrappers
  import opened Text

  /** Column of the `KEY=value` token holding the variant class. */
  const ClassColumn: nat := 13
  /** Column of the consequence term. */
  const ConsequenceColumn: nat := 6

  datatype ConsequenceInfo = ConsequenceInfo(variantClass: string, consequence: string)

  /** Why a data line raises `IndexError`. */
  datatype LineFault =
    | TooFewColumns(found: nat)               // fewer than 14 tokens
    | NoKeyValueInClassColumn(token: string)  // token 13 has no `=`

  /** The first failing data line, by 0-based index in the output's lines. */
  datatype ParseError = ParseError(lineIndex: nat, fault: LineFault)

  /** The site dictionary as the source builds it: the keys seen, all aliasing
      one shared record (absent until the first data line). */
  datatype SiteTable = SiteTable(keys: set<string>, shared: Option<ConsequenceInfo>) {

    /** The shared record exists exactly when some key has been stored. */
    predicate Valid() {
      keys == {} <==> shared.None?
    }

    /** `site_dict[key]` when `key in site_dict.keys()`. */
    function Get(key: string): Option<ConsequenceInfo> {
      if key in keys then shared else None
    }
  }

  const EmptyTable := SiteTable({}, None)

  /** What one non-comment line contributes: its key and record, or its fault. */
  function Decode(line: string): (r: Result<(string, ConsequenceInfo), LineFault>)
    ensures r.Success? <==>
      (var tokens := SplitWhitespace(line); |tokens| > ClassColumn && '=' in tokens[ClassColumn])
    ensures r.Failure? ==>
      (var tokens := SplitWhitespace(line);
       r.error == (if |tokens| <= ClassColumn then TooFewColumns(|tokens|)
                   else NoKeyValueInClassColumn(tokens[ClassColumn])))
  {
    var tokens := SplitWhitespace(line);
    if |tokens| <= ClassColumn then Failure(TooFewColumns(|tokens|))
    else
      var pieces := SplitOn(tokens[ClassColumn], '=');
      if |pieces| < 2 then Failure(NoKeyValueInClassColumn(tokens[ClassColumn]))
      else Success((tokens[0], ConsequenceInfo(pieces[1], tokens[ConsequenceColumn])))
  }

  /** One iteration of the loop: comments pass through, data lines add their
      key and overwrite the shared record. */
  function Step(t: SiteTable, line: string, index: nat): Result<SiteTable, ParseError> {
    if IsComment(line) then Success(t)
    else match Decode(line)
      case Failure(f) => Failure(ParseError(index, f))
      case Success((key, info)) => Success(SiteTable(t.keys + {key}, Some(info)))
  }

  /** The whole loop, as a left fold that stops at the first faulty line. */
  function ParseLines(lines: seq<string>): (r: Result<SiteTable, ParseError>)
    ensures r.Success? ==> r.value.Valid()
    decreases |lines|
  {
    if |lines| == 0 then Success(EmptyTable)
    else match ParseLines(lines[..|lines| - 1])
      case Failure(e) => Failure(e)
      case Success(t) => Step(t, lines[|lines| - 1], |lines| - 1)
  }

  // ---------------------------------------------------------------------
  // Reference descriptions, independent of the fold

  /** Every data line has the 14 columns and the `=` the loop indexes into. */
  ghost predicate WellFormed(lines: seq<string>) {
    forall i :: 0 <= i < |lines| && !IsComment(lines[i]) ==> Decode(lines[i]).Success?
  }

  /** The first tokens of the decodable data lines. */
  ghost function KeysOf(lines: seq<string>): set<string> {
    set line | line in lines && !IsComment(line) && Decode(line).Success? :: Decode(line).value.0
  }

  /** Line `i` is the last line that is not a comment. */
  ghost predicate IsLastDataLine(lines: seq<string>, i: int) {
    0 <= i < |lines| && !IsComment(lines[i])
    && forall j :: i < j < |lines| ==> IsComment(lines[j])
  }

  ghost predicate NoDataLine(lines: seq<string>) {
    forall j :: 0 <= j < |lines| ==> IsComment(lines[j])
  }

  // ---------------------------------------------------------------------
  // Properties of the parse

  /** A data line whose column 13 is `name=value`, optionally followed by
      further `=`-separated text, decodes to its column 0 as key, `value` as
      variant class and column 6 as consequence: only the piece between the
      first and second `=` is kept. */
  lemma DecodeClassColumn(line: string, name: string, value: string, tail: string)
    requires |SplitWhitespace(line)| > ClassColumn
    requires SplitWhitespace(line)[ClassColumn] == name + "=" + value + tail
    requires '=' !in name && '=' !in value
    requires tail == [] || tail[0] == '='
    ensures Decode(line)
      == Success((SplitWhitespace(line)[0], ConsequenceInfo(value, SplitWhitespace(line)[ConsequenceColumn])))
  {
    if tail == [] {
      assert name + "=" + value + tail == name + ['='] + value;
      SplitOnWithoutSeparator(value, '=');
    } else {
      assert tail == ['='] + tail[1..];
      assert name + "=" + value + tail == name + ['='] + (value + ['='] + tail[1..]);
      SplitOnFirstPiece(value, '=', tail[1..]);
    }
    SplitOnFirstPiece(name, '=', if tail == [] then value else value + ['='] + tail[1..]);
  }

  /** The parse fails exactly when some data line lacks a column or the `=`. */
  lemma {:induction false} ParseSucceedsIffWellFormed(lines: seq<string>)
    ensures ParseLines(lines).Success? <==> WellFormed(lines)
    decreases |lines|
  {
    if |lines| > 0 {
      var init := lines[..|lines| - 1];
      ParseSucceedsIffWellFormed(init);
      assert forall i :: 0 <= i < |init| ==> init[i] == lines[i];
    }
  }

  /** A failure names the first faulty data line and that line's fault. */
  lemma {:induction false} ParseFailureNamesFirstFaultyLine(lines: seq<string>)
    requires ParseLines(lines).Failure?
    ensures var e := ParseLines(lines).error;
      && e.lineIndex < |lines|
      && !IsComment(lines[e.lineIndex])
      && Decode(lines[e.lineIndex]) == Failure(e.fault)
      && WellFormed(lines[..e.lineIndex])
    decreases |lines|
  {
    var init := lines[..|lines| - 1];
    assert forall i :: 0 <= i < |init| ==> init[i] == lines[i];
    if ParseLines(init).Failure? {
      ParseFailureNamesFirstFaultyLine(init);
      var k := ParseLines(init).error.lineIndex;
      assert init[..k] == lines[..k];
    } else {
      ParseSucceedsIffWellFormed(init);
      assert lines[..|lines| - 1] == init;
    }
  }

  /** The key set is exactly the set of first tokens of the data lines. */
  lemma {:induction false} ParsedKeysAreFirstTokens(lines: seq<string>)
    requires ParseLines(lines).Success?
    ensures ParseLines(lines).value.keys == KeysOf(lines)
    decreases |lines|
  {
    if |lines| > 0 {
      var init := lines[..|lines| - 1];
      var last := lines[|lines| - 1];
      ParsedKeysAreFirstTokens(init);
      assert lines == init + [last];
      assert forall line :: line in lines <==> line in init || line == last;
    }
  }

  /** The shared record is the one of the last data line. (With no data line
      at all the table is empty: `NoDataLineGivesEmptyTable`.) */
  lemma {:induction false} SharedInfoIsLastDataLine(lines: seq<string>, i: int)
    requires ParseLines(lines).Success?
    requires IsLastDataLine(lines, i)
    ensures Decode(lines[i]).Success?
    ensures ParseLines(lines).value.shared == Some(Decode(lines[i]).value.1)
    decreases |lines|
  {
    var init := lines[..|lines| - 1];
    if i < |lines| - 1 {
      assert IsLastDataLine(init, i);
      SharedInfoIsLastDataLine(init, i);
    }
  }

  /** Output made only of comment lines yields the empty dictionary. */
  lemma {:induction false} NoDataLineGivesEmptyTable(lines: seq<string>)
    requires NoDataLine(lines)
    ensures ParseLines(lines) == Success(EmptyTable)
    decreases |lines|
  {
    if |lines| > 0 {
      NoDataLineGivesEmptyTable(lines[..|lines| - 1]);
    }
  }

  /** A comment line, wherever it sits, changes neither the outcome nor the table. */
  lemma {:induction false} CommentLineIsIgnored(before: seq<string>, comment: string, after: seq<string>)
    requires IsComment(comment)
    ensures ParseLines(before + [comment] + after).Success? <==> ParseLines(before + after).Success?
    ensures ParseLines(before + [comment] + after).Success? ==>
      ParseLines(before + [comment] + after).value == ParseLines(before + after).value
    decreases |after|
  {
    var with := before + [comment] + after;
    var without := before + after;
    if |after| == 0 {
      assert with[..|with| - 1] == before;
      assert without == before;
    } else {
      var init := after[..|after| - 1];
      var last := after[|after| - 1];
      CommentLineIsIgnored(before, comment, init);
      assert with[..|with| - 1] == before + [comment] + init;
      assert without[..|without| - 1] == before + init;
      assert with[|with| - 1] == last && without[|without| - 1] == last;
      if ParseLines(before + init).Success? {
        var t := ParseLines(before + init).value;
        if !IsComment(last) && Decode(last).Success? {
          assert Step(t, last, |with| - 1) == Step(t, last, |without| - 1);
        }
      }
    }
  }

  /** The aliasing quirk: every key of the dictionary reads back the variant
      class and consequence of the LAST data line, whichever line it came from. */
  lemma AliasingQuirk(lines: seq<string>, last: int, key: string)
    requires ParseLines(lines).Success?
    requires IsLastDataLine(lines, last)
    requires key in KeysOf(lines)
    ensures Decode(lines[last]).Success?
    ensures ParseLines(lines).value.Get(key) == Some(Decode(lines[last]).value.1)
  {
    ParsedKeysAreFirstTokens(lines);
    SharedInfoIsLastDataLine(lines, last);
  }

  // ---------------------------------------------------------------------
  // The evidently intended dictionary: one record per key, last line wins

  function StepPerKey(m: map<string, ConsequenceInfo>, line: string, index: nat)
    : Result<map<string, ConsequenceInfo>, ParseError>
  {
    if IsComment(line) then Success(m)
    else match Decode(line)
      case Failure(f) => Failure(ParseError(index, f))
      case Success((key, info)) => Success(m[key := info])
  }

  /** The loop with a fresh `info(variant_class, consequence)` per line. */
  function ParseLinesPerKey(lines: seq<string>): (r: Result<map<string, ConsequenceInfo>, ParseError>)
    ensures r.Success? <==> ParseLines(lines).Success?
    ensures r.Failure? ==> r.error == ParseLines(lines).error
    ensures r.Success? ==> r.value.Keys == ParseLines(lines).value.keys
    decreases |lines|
  {
    if |lines| == 0 then Success(map[])
    else match ParseLinesPerKey(lines[..|lines| - 1])
      case Failure(e) => Failure(e)
      case Success(m) => StepPerKey(m, lines[|lines| - 1], |lines| - 1)
  }

  function PerKeyGet(m: map<string, ConsequenceInfo>, key: string): Option<ConsequenceInfo> {
    if key in m then Some(m[key]) else None
  }

  /** Per key, the record of the last data line carrying that key. */
  lemma {:induction false} PerKeyLastLineWins(lines: seq<string>, i: int)
    requires ParseLinesPerKey(lines).Success?
    requires 0 <= i < |lines| && !IsComment(lines[i]) && Decode(lines[i]).Success?
    requires forall j :: i < j < |lines| && !IsComment(lines[j]) ==>
      Decode(lines[j]).Success? && Decode(lines[j]).value.0 != Decode(lines[i]).value.0
    ensures PerKeyGet(ParseLinesPerKey(lines).value, Decode(lines[i]).value.0) == Some(Decode(lines[i]).value.1)
    decreases |lines|
  {
    var init := lines[..|lines| - 1];
    if i < |lines| - 1 {
      assert forall j :: 0 <= j < |init| ==> init[j] == lines[j];
      PerKeyLastLineWins(init, i);
    }
  }

  /** Source defect: two data lines with different keys and different records.
      The dictionary as written answers the first key with the second line's
      record; the per-key dictionary answers it with the first line's own. */
  lemma AliasingDiffersFromPerKey(first: string, second: string)
    requires !IsComment(first) && !IsComment(second)
    requires Decode(first).Success? && Decode(second).Success?
    requires Decode(first).value.0 != Decode(second).value.0
    requires Decode(first).value.1 != Decode(second).value.1
    ensures ParseLines([first, second]).Success?
    ensures ParseLines([first, second]).value.Get(Decode(first).value.0) == Some(Decode(second).value.1)
    ensures PerKeyGet(ParseLinesPerKey([first, second]).value, Decode(first).value.0) == Some(Decode(first).value.1)
  {
    var lines := [first, second];
    assert lines[..1] == [first];
    assert [first][..0] == [];
    assert IsLastDataLine(lines, 1);
    PerKeyLastLineWins(lines, 0);
  }
}

=== FILE: wrappers.dfy ===
/** Failure-carrying values shared by the whole model. */
module Wrappers {

  /** A value that may be absent: a dictionary miss, a service with no answer. */
  datatype Option<+T> = None | Some(value: T)

  /** The outcome of a step that can raise: the value it produced, or why it stopped. */
  datatype Result<+R, +E> = Success(value: R) | Failure(error: E)
}
